=== FILE: README.md ===
# Ordered question lists — a Dafny model

The questionnaire app lets an authenticated user create a questionnaire and
manage its questions. A `Questionnaire` row keeps a denormalised
`ordered_question_ids` array next to the `Question` rows. A question is never
removed; deleting it clears its `is_active` flag (a soft delete). Four
mutations change this state: create a questionnaire, create a question,
delete a question, and reorder the questions. One query lists every
questionnaire with its active questions. The store does not relate the array
to the rows, so the mutations must keep the two consistent by hand.

This project models that state machine as pure functions over an immutable
store state and proves that the consistency holds after every request.

- `sequences.dfy` (`Sequences`): the list operations the mutations use.
  These are Python's `set`, `len` and `list.remove`. It also proves that
  the reorder check is a permutation check on duplicate-free lists.
- `models.dfy` (`Models`): the rows, the five answer types, the column
  widths and the `smallint` element type of the ordering array. It also
  holds the store operations. Each one fails with the error its `save`
  maps to, or returns the next state.
- `schema.dfy` (`Schema`): the four mutations as all-or-nothing steps, and
  the listing. Each step returns `Err(kind)` or `Ok(next state)`, and
  `Commit` keeps the old state on an error. Each mutation meets its errors
  in the same order as the code.
- `invariants.dfy` (`Invariants`): the invariant and the proofs that it holds.
  For every questionnaire, the ordering has no duplicates and its set is the
  set of ids of its active questions. The store's own guarantees are part
  of the invariant too: unique titles, unique texts per questionnaire, column
  widths, existing references and allocated ids. The invariant holds in the
  empty store and after every request, in any sequence of requests.
- `transactions.dfy` (`Transactions`): the mutations in the order the code
  runs them, including its early writes. Creating a question inserts the
  row before the questionnaire lookup and the ownership check. Deleting a
  question clears `is_active` before the ownership check. Each request runs
  in one transaction (`ATOMIC_REQUESTS`). The model rolls back a request whose
  mutation raised. graphene does not let that exception leave the view: it
  becomes an `errors` entry of the response. So the rollback rests on the
  GraphQL view marking the transaction for rollback when its result has
  errors. Under that rollback, each write-first mutation gives the same result as its
  check-first version in `Schema`. Two refused requests on one concrete
  store show what happens without it (`AutocommitBreaksInvOnCreate`,
  `AutocommitBreaksInvOnDelete`): a request refused after the questionnaire
  lookup succeeds leaves the store inconsistent.
- `scenarios.dfy` (`Scenarios`): the app's end-to-end walk. A user creates
  "Interview questions" and adds four questions. The user then deletes the
  third question and swaps the first two.

The acting user is an explicit `principal` parameter of every mutation.
Row ids come from one counter per table, starting at 1, as Postgres
sequences do.

The ordering array's element type is `PositiveSmallIntegerField`, which is
stored as a Postgres `smallint`. Question ids are global, so once the
question counter passes 32767, no further question can be appended. The
model keeps this behaviour: the append fails with `IdOutOfRange`, and the
whole request is rolled back.

Four definitions carry no claim of their own; the lemmas built on them do:

- `Schema.Commit` is the request's transaction: the old state on an error,
  the new state on success. What it guarantees is proved by the
  `*PreservesInv` lemmas and `Invariants.ApplyPreservesInv`.
- `Transactions.Atomic` is `ATOMIC_REQUESTS`: a run that raised reports its
  error and commits nothing. The `*IsAtomic` lemmas prove what it buys.
- `Schema.ActiveQuestions` is the `prefetch_questions` filter: the active
  questions of one questionnaire. `Schema.ListQuestionnaires`,
  `Invariants.ListingMatchesOrdering` and `Invariants.DeleteQuestionEffect`
  state what the listing shows.
- `Models.VarcharError` picks the error a refused `varchar` value raises:
  `NulCharacter` for a value holding NUL, the column's too-long kind
  otherwise. The insert rows and `Models.NulIsRefused` state its effect.

Titles and texts are `varchar(250)` columns in Postgres
(`Models.StoredVarchar`). A longer value is refused, unless every character
past the 250th is a space; Postgres then stores the value cut to 250
characters instead of raising. The uniqueness checks compare the stored value,
so `"a" * 250 + " "` is refused as a duplicate when `"a" * 250` is already a
title. No character type can hold the character NUL, and the driver refuses a
string parameter that contains one before the query is sent. The model
reports that as `NulCharacter`, ahead of any length or uniqueness error.

Three behaviours of the code worth knowing:

- Titles may be empty. `CreateQuestionnaire.mutate` does not check for an
  empty title.
- When creating a question, the text checks come first. An over-long or
  duplicate text is reported before a missing questionnaire or a foreign
  user, because the insert runs first.
- When deleting a question, two checks come before ownership. A missing
  question and an already deleted question are both reported before the
  ownership check.

## Model

| member | source | states |
|---|---|---|
| Sequences.RemoveFirst | questionnaire/schema.py:108 | `list.remove` drops the first occurrence of the id, and the elements before and after it keep their order |
| Sequences.Without | questionnaire/schema.py:108 | reference removal: the result never contains the id, its set is the old set minus the id, and it is no longer than the input |
| Sequences.RemoveFirstOfDistinct | questionnaire/schema.py:108 | on a duplicate-free ordering, `list.remove` equals the reference removal; the result is one shorter, still duplicate-free, and has the old set minus the id |
| Sequences.DistinctIffNoLoss | questionnaire/schema.py:131-133 | a list has no duplicates exactly when its set is as large as its length |
| Sequences.SameContent | questionnaire/schema.py:131-133 | a payload that passes the set-and-length check against a duplicate-free ordering is itself duplicate-free |
| Sequences.AcceptedPayloadIsPermutation | questionnaire/schema.py:131-134 | when the current ordering has no duplicates, the set-and-length check accepts exactly its permutations, and every accepted payload is duplicate-free |
| Sequences.SameContentWithoutDistinctness | questionnaire/schema.py:131-133 | on a list that already has a duplicate, the set-and-length check can accept a payload that is not a permutation |
| Models.StoredValue | questionnaire/models.py:38-47 | each of the five answer types is stored as a non-empty value of at most 15 characters |
| Models.ParseAnswerType | questionnaire/models.py:38-43 | a stored value is read back to the answer type it names; anything outside the five choices is refused |
| Models.AnswerTypeRoundTrip | questionnaire/models.py:38-43 | reading back a stored answer type gives the same answer type |
| Models.StoredVarchar | settings/base.py:80 | a `varchar` column refuses any value holding NUL; otherwise it stores a value that fits as is, and a longer one cut to the width exactly when everything past the width is spaces, refusing it otherwise |
| Models.NulIsRefused | settings/base.py:80 | a short title holding NUL cannot be stored and is reported as `NulCharacter` |
| Models.TrailingSpaceIsCut | settings/base.py:80 | a 251-character title ending in a space is stored as its first 250 characters |
| Models.InsertQuestionnaire | questionnaire/models.py:17-27 | a title holding NUL is refused as `NulCharacter`; an over-long title is refused unless only spaces overflow; otherwise the insert succeeds exactly when the stored title is unused and the ordering fits `smallint`, and a duplicate title is reported as such; the new row, with the stored title, gets a fresh key; no other row and no question changes, and the question counter stays |
| Models.InsertQuestion | questionnaire/models.py:45-61 | a text holding NUL is refused as `NulCharacter`; an over-long text is refused unless only spaces overflow; otherwise the insert succeeds exactly when the stored text is unused in that questionnaire, inactive rows included, and a duplicate is reported as such; the new row gets the next id; no other row and no questionnaire changes |
| Models.Deactivate | questionnaire/schema.py:101-102 | the soft delete keeps the row and its questionnaire, text and type; only `is_active` becomes false |
| Models.SaveOrdering | questionnaire/models.py:19 | saving an ordering fails exactly when an id does not fit `smallint`; on success only that questionnaire's ordering changes |
| Schema.CreateQuestionnaire | questionnaire/schema.py:48-55 | a title holding NUL is refused as `NulCharacter`, then an over-long one as `TitleTooLong`; succeeds exactly when the title can be stored and the stored title is unused; the new questionnaire holds the stored title, the acting user as creator and an empty ordering; no other questionnaire, no question and not the question counter changes |
| Schema.CreateQuestion | questionnaire/schema.py:68-85 | text errors come first (NUL, then length, then a duplicate), then a missing questionnaire, then a foreign user; succeeds exactly when the stored text is unused, the questionnaire exists, the acting user created it and the new id fits; on success the ordering grows by one, keeps its prefix and ends with the new id, the new question is active with the stored text, and no other questionnaire, no other question, not `k`'s title or creator and not the questionnaire counter changes |
| Schema.DeleteQuestion | questionnaire/schema.py:97-111 | an unknown question or one of another questionnaire is not found; a deleted one is refused; for an active one, a missing questionnaire, then a foreign user, then an id absent from the ordering is refused; success needs the creator; on success the id's first occurrence is removed from the ordering, the row stays with only `is_active` cleared, and nothing else changes, counters included |
| Schema.ReorderQuestions | questionnaire/schema.py:123-141 | a missing questionnaire and a foreign user are refused; for the creator it succeeds exactly when the payload has the current set and length; on success the ordering becomes the payload verbatim, and no other questionnaire, no question and no counter changes; the current ordering as payload is a no-op |
| Schema.ListQuestionnaires | questionnaire/schema.py:35-37 | the listing has every questionnaire once, unchanged, and attaches exactly its active questions, each row as stored |
| Invariants.Inv | questionnaire/models.py:13-15 | the invariant; under it the next questionnaire id and the next question id are still unused |
| Invariants.OrderingCountsActive | questionnaire/models.py:13-15 | under the invariant an ordering holds exactly the active questions of its questionnaire, each once, so its length is their number |
| Invariants.EmptyInv | questionnaire/models.py:13-15 | the empty store satisfies the invariant |
| Invariants.OrderingIdsAreQuestions | questionnaire/models.py:13-15 | under the invariant every id in an ordering is positive, below the next question id, and an active question of that questionnaire, as `PositiveSmallIntegerField` requires |
| Invariants.CreateQuestionnairePreservesInv | questionnaire/schema.py:49-53 | creating a questionnaire preserves the invariant |
| Invariants.CreateQuestionPreservesInv | questionnaire/schema.py:69-83 | creating a question preserves the invariant |
| Invariants.DeleteQuestionPreservesInv | questionnaire/schema.py:98-109 | deleting a question preserves the invariant |
| Invariants.ReorderQuestionsPreservesInv | questionnaire/schema.py:124-139 | reordering preserves the invariant |
| Invariants.DeleteSucceedsIff | questionnaire/schema.py:98-108 | under the invariant, a delete succeeds exactly for an active question of that questionnaire and its creator; the questionnaire lookup and `list.remove` never fail |
| Invariants.CreateQuestionEffect | questionnaire/schema.py:82 | under the invariant the new id is fresh, exactly that id joins the questionnaire's active set, no other questionnaire's set moves, no existing row changes, and the ordering stays duplicate-free |
| Invariants.DeleteQuestionEffect | questionnaire/schema.py:101-108 | under the invariant exactly the deleted id leaves the active set and the ordering; the others keep their relative order; the listing no longer shows it |
| Invariants.ReorderAcceptsPermutations | questionnaire/schema.py:131-138 | under the invariant the creator's reorder succeeds exactly for permutations of the current ordering; accepted payloads are duplicate-free; no listed question set changes |
| Invariants.ListingMatchesOrdering | questionnaire/schema.py:36-37 | under the invariant each listed questionnaire's question set is exactly the set of its ordering, with one question per entry |
| Invariants.DeletedTextStaysTaken | questionnaire/models.py:50-53 | the text of a soft-deleted question can never be used again in its questionnaire |
| Invariants.EvolvesTransitive | questionnaire/models.py:36-48 | the "only evolves" relation on stores composes over successive requests |
| Invariants.ApplyPreservesInv | questionnaire/schema.py:48-139 | any single request preserves the invariant, removes no row, keeps titles, creators and question contents, and never reactivates a question |
| Invariants.ReplayPreservesInv | questionnaire/models.py:13-15 | any sequence of requests preserves the invariant and only evolves the store |
| Invariants.ReachableInv | questionnaire/models.py:13-15 | every store reachable from the empty one satisfies the invariant |
| Transactions.CreateQuestionnaireAsWritten | questionnaire/schema.py:49-53 | the insert is the only write, so a raised run wrote nothing and names a title error; a finished one touches no question |
| Transactions.CreateQuestionAsWritten | questionnaire/schema.py:69-83 | a text error raises before any write; a missing questionnaire or a foreign user raises after the insert, so the working store holds the new active question while every ordering is unchanged; finishing needs the creator |
| Transactions.DeleteQuestionAsWritten | questionnaire/schema.py:98-109 | lookup and already-deleted errors raise before any write; later refusals raise after the soft delete, so the working store has the question inactive while every ordering is unchanged; finishing needs the creator |
| Transactions.ReorderQuestionsAsWritten | questionnaire/schema.py:124-139 | every check precedes the one write, so a raised run wrote nothing; a finished one belongs to the creator and stores the payload verbatim |
| Transactions.CreateQuestionnaireIsAtomic | questionnaire/schema.py:49-53 | the as-written questionnaire creation, under rollback, equals the check-first model |
| Transactions.CreateQuestionIsAtomic | questionnaire/schema.py:69-83 | inserting before the lookup and ownership checks, under rollback, gives exactly the check-first result |
| Transactions.DeleteQuestionIsAtomic | questionnaire/schema.py:98-109 | soft-deleting before the ownership check, under rollback, gives exactly the check-first result |
| Transactions.ReorderQuestionsIsAtomic | questionnaire/schema.py:124-139 | the as-written reorder, under rollback, equals the check-first model |
| Transactions.AutocommitBreaksInvOnCreate | questionnaire/schema.py:69-81 | without rollback, a foreign user's refused create leaves an active question that no ordering lists |
| Transactions.AutocommitBreaksInvOnDelete | questionnaire/schema.py:101-107 | without rollback, a foreign user's refused delete leaves an ordering that lists an inactive question |
| Scenarios.QuestionsUpToKeys | questionnaire/tests.py:41-66 | the walk's question rows are ids 1 to n with the listed texts |
| Scenarios.CreateQuestionnaireStep | questionnaire/tests.py:149-158 | the new questionnaire has an empty ordering and the acting user as creator |
| Scenarios.CreateQuestionStep | questionnaire/tests.py:160-179 | each of the four creates succeeds and appends the next id in creation order |
| Scenarios.DeleteStep | questionnaire/schema.py:97-111 | a stranger's delete is refused by the ownership check; the author's delete of question 3 leaves `[1, 2, 4]` and hides it from the listing, as the walk in questionnaire/tests.py:181-200 expects |
| Scenarios.ReorderStep | questionnaire/schema.py:123-141 | a payload missing an id is refused by the set-and-length check; swapping the first two ids is accepted and the listed questions are unchanged, as the walk in questionnaire/tests.py:202-217 expects |

## Left out

- GraphQL and graphene plumbing, the `login_required` decorator and JWT authentication are not modelled. The authenticated user is the `principal` parameter.
- Sign-up and user creation are not modelled. They are a thin wrapper over the framework's user model.
- Error messages are not modelled. Each failure is an `Error` kind. The Postgres error code and the matching on message text that `save` uses become `DuplicateTitle` and `DuplicateText`. Other integrity errors cannot arise in the model.
- The id sequences are not fully modelled. A rolled-back Postgres request still consumes a sequence value, so real ids can skip numbers. The model leaves its counters unchanged on failure, and only freshness matters to the invariant. The 32-bit limit of the question id column is not modelled either.
- The `Prefetch` object is modelled only by what it selects, the active questions. Its query-count optimisation is not modelled.
- Neither the questionnaire listing nor a question set has a defined order in the code. The model returns maps keyed by id.
- The reorder payload is a GraphQL list whose items may be null. The model takes a list of integers.
- The `AnswerPrepared`, `AnswerCustom` and `Answer` models are not modelled. They are declared but never used.
- The comma-separated text example in the `Questionnaire` doc comment is stale and not modelled. The field is an integer array.
- Concurrency is not modelled: no row locking and no lost updates on the ordering. The model is sequential, with one committed request per step.
- Settings and environment configuration are not modelled, except `ATOMIC_REQUESTS`.
- The GraphQL view is not part of this model, nor is the graphene-django version. graphene reports a mutation's exception in the response instead of raising it from the view, and `ATOMIC_REQUESTS` alone rolls back only a view that raises. The all-or-nothing steps of `Schema`, `Schema.Commit` and `Transactions.Atomic` assume the view marks the transaction for rollback when its result has errors. Without that, the early writes of a request refused after the questionnaire lookup succeeds are committed, which is what `Transactions.AutocommitBreaksInvOnCreate` and `Transactions.AutocommitBreaksInvOnDelete` describe.
- Transactions.Autocommit: keeps every early write and does not model the deferred foreign key check at commit, which still undoes a question inserted under a missing questionnaire; no lemma relies on that case.
- A delete whose question exists but whose questionnaire does not would fail in the source with an attribute error on `None`. The model reports `QuestionnaireNotFound` instead. Under the invariant the case cannot happen (`Invariants.DeleteSucceedsIff`).

=== FILE: invariants.dfy ===
/**
 The consistency the ordering engine has to keep by hand, since the store
 does not relate `ordered_question_ids` to the question rows: for every
 questionnaire the ordering has no duplicates and holds exactly the ids of its
 active questions. Together with what the store itself enforces (unique
 titles, unique texts per questionnaire, column widths, existing references,
 ids below the next id) it holds in the empty store and after every request.
 */
module Invariants {
  import opened Sequences
  import opened Models
  import opened Schema

  /** Every row id is positive and below the id its table hands out next. */
  predicate IdsAllocated(s: State) {
    && 0 < s.nextQuestionnaireId && 0 < s.nextQuestionId
    && (forall k :: k in s.questionnaires ==> 0 < k < s.nextQuestionnaireId)
    && (forall id :: id in s.questions ==> 0 < id < s.nextQuestionId)
  }

  /** Every question refers to an existing questionnaire. */
  predicate ReferencesExist(s: State) {
    forall id :: id in s.questions ==> s.questions[id].questionnaireId in s.questionnaires
  }

  predicate UniqueTitles(s: State) {
    forall a, b :: a in s.questionnaires && b in s.questionnaires && a != b ==>
      s.questionnaires[a].title != s.questionnaires[b].title
  }

  /** No two questions of one questionnaire, active or not, share a text. */
  predicate UniqueTexts(s: State) {
    forall a, b ::
      (a in s.questions && b in s.questions && a != b &&
       s.questions[a].questionnaireId == s.questions[b].questionnaireId) ==>
      s.questions[a].text != s.questions[b].text
  }

  /** Every stored value fits its column, and no stored string holds NUL. */
  predicate ColumnsFit(s: State) {
    && (forall k :: k in s.questionnaires ==>
          && |s.questionnaires[k].title| <= MaxTitleLength && '\0' !in s.questionnaires[k].title
          && Storable(s.questionnaires[k].orderedQuestionIds))
    && (forall id :: id in s.questions ==> |s.questions[id].text| <= MaxTextLength && '\0' !in s.questions[id].text)
  }

  /** The ordering of `k` is duplicate-free and its set is the set of active questions of `k`. */
  predicate OrderingConsistent(s: State, k: int)
    requires k in s.questionnaires
  {
    NoDuplicates(OrderingOf(s, k)) && Elements(OrderingOf(s, k)) == ActiveIds(s, k)
  }

  /**
   The invariant of the store. Under it the ids the tables hand out next are
   still unused, so an insert never overwrites a row.
   */
  function Inv(s: State): (b: bool)
    ensures b ==> s.nextQuestionnaireId !in s.questionnaires && s.nextQuestionId !in s.questions
  {
    && IdsAllocated(s)
    && ReferencesExist(s)
    && UniqueTitles(s)
    && UniqueTexts(s)
    && ColumnsFit(s)
    && (forall k :: k in s.questionnaires ==> OrderingConsistent(s, k))
  }

  /** Under the invariant every ordering lists each active question of its questionnaire exactly once. */
  lemma {:induction false} OrderingCountsActive(s: State, k: int)
    requires Inv(s) && k in s.questionnaires
    ensures |OrderingOf(s, k)| == |ActiveIds(s, k)|
    ensures forall x :: x in OrderingOf(s, k) <==> x in ActiveIds(s, k)
  {
    assert OrderingConsistent(s, k);
    DistinctIffNoLoss(OrderingOf(s, k));
  }

  lemma EmptyInv()
    ensures Inv(Empty)
  {
  }

  /** Ordering ids are question ids, hence fresh ids are never in an ordering. */
  lemma OrderingIdsAreQuestions(s: State, k: int, x: int)
    requires Inv(s) && k in s.questionnaires && x in OrderingOf(s, k)
    ensures x in s.questions && s.questions[x].questionnaireId == k && s.questions[x].isActive
    ensures 0 < x < s.nextQuestionId
  {
    assert x in Elements(OrderingOf(s, k));
  }

  lemma ElementsAppend(xs: seq<int>, x: int)
    ensures Elements(xs + [x]) == Elements(xs) + {x}
  {
    assert forall y :: y in xs + [x] <==> y in xs || y == x;
  }

  lemma {:induction false} CreateQuestionnairePreservesInv(s: State, principal: UserId, title: string)
    requires Inv(s)
    ensures Inv(Commit(s, CreateQuestionnaire(s, principal, title)))
  {
    var r := CreateQuestionnaire(s, principal, title);
    if r.Ok? {
      var s' := r.value;
      var n := s.nextQuestionnaireId;
      assert n !in s.questionnaires;
      var stored := StoredVarchar(title, MaxTitleLength).value;
      assert s'.questionnaires == s.questionnaires[n := Questionnaire(stored, principal, [])];
      assert ActiveIds(s', n) == {} by {
        forall id | id in s'.questions
          ensures s'.questions[id].questionnaireId != n
        {
          assert s.questions[id].questionnaireId in s.questionnaires;
        }
      }
      forall k | k in s'.questionnaires
        ensures OrderingConsistent(s', k)
      {
        if k != n {
          assert ActiveIds(s', k) == ActiveIds(s, k);
          assert OrderingConsistent(s, k);
        }
      }
      assert UniqueTitles(s');
    }
  }

  lemma {:induction false} CreateQuestionPreservesInv(s: State, principal: UserId, k: int, text: string, answerType: AnswerType)
    requires Inv(s)
    ensures Inv(Commit(s, CreateQuestion(s, principal, k, text, answerType)))
  {
    var r := CreateQuestion(s, principal, k, text, answerType);
    if r.Ok? {
      var s' := r.value;
      var n := s.nextQuestionId;
      assert n !in s.questions;
      var before := OrderingOf(s, k);
      assert OrderingOf(s', k) == before + [n];
      assert ActiveIds(s', k) == ActiveIds(s, k) + {n};
      forall j | j in s'.questionnaires
        ensures OrderingConsistent(s', j)
      {
        assert OrderingConsistent(s, j);
        if j == k {
          ElementsAppend(before, n);
          forall a, b | 0 <= a < b < |before + [n]|
            ensures (before + [n])[a] != (before + [n])[b]
          {
            if b == |before| {
              assert (before + [n])[a] == before[a];
              OrderingIdsAreQuestions(s, k, before[a]);
            }
          }
        } else {
          assert ActiveIds(s', j) == ActiveIds(s, j);
        }
      }
      assert UniqueTexts(s') by {
        forall a, b | a in s'.questions && b in s'.questions && a != b &&
          s'.questions[a].questionnaireId == s'.questions[b].questionnaireId
          ensures s'.questions[a].text != s'.questions[b].text
        {
          if a == n {
            assert s.questions[b].questionnaireId == k;
          } else if b == n {
            assert s.questions[a].questionnaireId == k;
          }
        }
      }
      assert ColumnsFit(s') by {
        forall j | j in s'.questionnaires
          ensures Storable(s'.questionnaires[j].orderedQuestionIds)
        {
          if j == k {
            assert Storable(before);
          }
        }
      }
    }
  }

  lemma {:induction false} DeleteQuestionPreservesInv(s: State, principal: UserId, k: int, questionId: int)
    requires Inv(s)
    ensures Inv(Commit(s, DeleteQuestion(s, principal, k, questionId)))
  {
    var r := DeleteQuestion(s, principal, k, questionId);
    if r.Ok? {
      var s' := r.value;
      var before := OrderingOf(s, k);
      assert OrderingConsistent(s, k);
      RemoveFirstOfDistinct(before, questionId);
      var after := RemoveFirst(before, questionId);
      assert OrderingOf(s', k) == after;
      assert ActiveIds(s', k) == ActiveIds(s, k) - {questionId};
      forall j | j in s'.questionnaires
        ensures OrderingConsistent(s', j)
      {
        if j != k {
          assert OrderingConsistent(s, j);
          assert ActiveIds(s', j) == ActiveIds(s, j);
        }
      }
      assert ColumnsFit(s') by {
        forall j | j in s'.questionnaires
          ensures Storable(s'.questionnaires[j].orderedQuestionIds)
        {
          if j == k {
            var i := IndexOf(before, questionId);
            forall a | 0 <= a < |after|
              ensures FitsSmallInt(after[a])
            {
              if a < i {
                assert after[a] == before[a];
              } else {
                assert after[a] == before[a + 1];
              }
            }
          }
        }
      }
    }
  }

  lemma {:induction false} ReorderQuestionsPreservesInv(s: State, principal: UserId, k: int, payload: seq<int>)
    requires Inv(s)
    ensures Inv(Commit(s, ReorderQuestions(s, principal, k, payload)))
  {
    var r := ReorderQuestions(s, principal, k, payload);
    if r.Ok? {
      var s' := r.value;
      var before := OrderingOf(s, k);
      assert OrderingConsistent(s, k);
      AcceptedPayloadIsPermutation(before, payload);
      forall j | j in s'.questionnaires
        ensures OrderingConsistent(s', j)
      {
        assert OrderingConsistent(s, j);
        assert ActiveIds(s', j) == ActiveIds(s, j);
      }
      assert ColumnsFit(s') by {
        forall a | 0 <= a < |payload|
          ensures FitsSmallInt(payload[a])
        {
          assert payload[a] in Elements(before);
          var b :| 0 <= b < |before| && before[b] == payload[a];
        }
      }
    }
  }

  /**
   Under the invariant the delete succeeds exactly for an active question of
   `k` whose questionnaire the acting user created: the questionnaire lookup
   always finds a row and `list.remove` always finds the id.
   */
  lemma DeleteSucceedsIff(s: State, principal: UserId, k: int, questionId: int)
    requires Inv(s)
    ensures DeleteQuestion(s, principal, k, questionId).Ok? <==>
      questionId in ActiveIds(s, k) && s.questionnaires[k].creator == principal
    ensures DeleteQuestion(s, principal, k, questionId) != Err(NotInOrdering)
    ensures DeleteQuestion(s, principal, k, questionId) != Err(QuestionnaireNotFound)
  {
    if questionId in ActiveIds(s, k) {
      assert k in s.questionnaires;
      assert OrderingConsistent(s, k);
      assert questionId in Elements(OrderingOf(s, k));
    }
  }

  /**
   Creating a question under the invariant adds exactly the fresh id to the
   active set of `k` and to its ordering, which stays duplicate-free; no other
   questionnaire's active set moves.
   */
  lemma CreateQuestionEffect(s: State, principal: UserId, k: int, text: string, answerType: AnswerType)
    requires Inv(s)
    requires CreateQuestion(s, principal, k, text, answerType).Ok?
    ensures s.nextQuestionId !in s.questions
    ensures var s' := CreateQuestion(s, principal, k, text, answerType).value;
      && ActiveIds(s', k) == ActiveIds(s, k) + {s.nextQuestionId}
      && (forall j :: j != k ==> ActiveIds(s', j) == ActiveIds(s, j))
      && (forall id :: id in s.questions ==> id in s'.questions && s'.questions[id] == s.questions[id])
      && NoDuplicates(OrderingOf(s', k))
  {
    var s' := CreateQuestion(s, principal, k, text, answerType).value;
    CreateQuestionPreservesInv(s, principal, k, text, answerType);
    assert OrderingConsistent(s', k);
    forall j | j != k
      ensures ActiveIds(s', j) == ActiveIds(s, j)
    {
    }
  }

  /**
   Deleting a question under the invariant removes exactly its id from the
   active set and from the ordering; the other ids keep their relative order.
   */
  lemma DeleteQuestionEffect(s: State, principal: UserId, k: int, questionId: int)
    requires Inv(s)
    requires DeleteQuestion(s, principal, k, questionId).Ok?
    ensures var s' := DeleteQuestion(s, principal, k, questionId).value;
      && ActiveIds(s', k) == ActiveIds(s, k) - {questionId}
      && OrderingOf(s', k) == Without(OrderingOf(s, k), questionId)
      && |OrderingOf(s', k)| == |OrderingOf(s, k)| - 1
      && questionId !in ListQuestionnaires(s')[k].questionSet
      && (forall j :: j != k ==> ActiveIds(s', j) == ActiveIds(s, j))
  {
    var s' := DeleteQuestion(s, principal, k, questionId).value;
    assert OrderingConsistent(s, k);
    RemoveFirstOfDistinct(OrderingOf(s, k), questionId);
    assert ActiveIds(s', k) == ActiveIds(s, k) - {questionId};
    forall j | j != k
      ensures ActiveIds(s', j) == ActiveIds(s, j)
    {
    }
  }

  /**
   Under the invariant a reorder accepts exactly the permutations of the
   current ordering, and leaves every listed question set as it was.
   */
  lemma ReorderAcceptsPermutations(s: State, principal: UserId, k: int, payload: seq<int>)
    requires Inv(s) && k in s.questionnaires && s.questionnaires[k].creator == principal
    ensures ReorderQuestions(s, principal, k, payload).Ok? <==> multiset(payload) == multiset(OrderingOf(s, k))
    ensures ReorderQuestions(s, principal, k, payload).Ok? ==> NoDuplicates(payload)
    ensures forall j :: j in s.questionnaires ==>
      ListQuestionnaires(Commit(s, ReorderQuestions(s, principal, k, payload)))[j].questionSet == ListQuestionnaires(s)[j].questionSet
  {
    assert OrderingConsistent(s, k);
    AcceptedPayloadIsPermutation(OrderingOf(s, k), payload);
  }

  /**
   Under the invariant the listing attaches to each questionnaire exactly the
   questions its ordering names, one per entry.
   */
  lemma {:induction false} ListingMatchesOrdering(s: State)
    requires Inv(s)
    ensures forall k :: k in ListQuestionnaires(s) ==>
      && ListQuestionnaires(s)[k].questionSet.Keys == Elements(ListQuestionnaires(s)[k].questionnaire.orderedQuestionIds)
      && |ListQuestionnaires(s)[k].questionSet| == |ListQuestionnaires(s)[k].questionnaire.orderedQuestionIds|
  {
    var l := ListQuestionnaires(s);
    forall k | k in l
      ensures l[k].questionSet.Keys == Elements(l[k].questionnaire.orderedQuestionIds)
      ensures |l[k].questionSet| == |l[k].questionnaire.orderedQuestionIds|
    {
      assert OrderingConsistent(s, k);
      DistinctIffNoLoss(OrderingOf(s, k));
      assert |l[k].questionSet| == |l[k].questionSet.Keys|;
    }
  }

  /**
   Text uniqueness covers deleted questions too: the text of a soft-deleted
   question can never be used again in its questionnaire.
   */
  lemma DeletedTextStaysTaken(s: State, principal: UserId, questionId: int, answerType: AnswerType)
    requires Inv(s) && questionId in s.questions && !s.questions[questionId].isActive
    ensures var q := s.questions[questionId];
      CreateQuestion(s, principal, q.questionnaireId, q.text, answerType) == Err(DuplicateText)
  {
  }

  /** Any request a client can send. */
  datatype Mutation =
    | NewQuestionnaire(principal: UserId, title: string)
    | NewQuestion(principal: UserId, questionnaireId: int, text: string, answerType: AnswerType)
    | Delete(principal: UserId, questionnaireId: int, questionId: int)
    | Reorder(principal: UserId, questionnaireId: int, payload: seq<int>)

  function Apply(s: State, m: Mutation): Result<State> {
    match m
    case NewQuestionnaire(p, title) => CreateQuestionnaire(s, p, title)
    case NewQuestion(p, k, text, t) => CreateQuestion(s, p, k, text, t)
    case Delete(p, k, id) => DeleteQuestion(s, p, k, id)
    case Reorder(p, k, payload) => ReorderQuestions(s, p, k, payload)
  }

  /** The requests committed one after another, each in its own transaction. */
  function Replay(s: State, ms: seq<Mutation>): State
    decreases |ms|
  {
    if |ms| == 0 then s else Replay(Commit(s, Apply(s, ms[0])), ms[1..])
  }

  /**
   What no request ever does: remove a row, change a questionnaire's title
   or creator, change a question's questionnaire, text or answer type,
   reactivate a deleted question, or hand out an id twice.
   */
  predicate Evolves(s: State, s': State) {
    && s.nextQuestionnaireId <= s'.nextQuestionnaireId
    && s.nextQuestionId <= s'.nextQuestionId
    && (forall k :: k in s.questionnaires ==>
          && k in s'.questionnaires
          && s'.questionnaires[k].title == s.questionnaires[k].title
          && s'.questionnaires[k].creator == s.questionnaires[k].creator)
    && (forall id :: id in s.questions ==>
          && id in s'.questions
          && s'.questions[id].(isActive := true) == s.questions[id].(isActive := true)
          && (s'.questions[id].isActive ==> s.questions[id].isActive))
  }

  lemma EvolvesTransitive(s0: State, s1: State, s2: State)
    requires Evolves(s0, s1) && Evolves(s1, s2)
    ensures Evolves(s0, s2)
  {
  }

  lemma {:induction false} ApplyPreservesInv(s: State, m: Mutation)
    requires Inv(s)
    ensures Inv(Commit(s, Apply(s, m)))
    ensures Evolves(s, Commit(s, Apply(s, m)))
  {
    match m
    case NewQuestionnaire(p, title) =>
      CreateQuestionnairePreservesInv(s, p, title);
    case NewQuestion(p, k, text, t) =>
      CreateQuestionPreservesInv(s, p, k, text, t);
    case Delete(p, k, id) =>
      DeleteQuestionPreservesInv(s, p, k, id);
    case Reorder(p, k, payload) =>
      ReorderQuestionsPreservesInv(s, p, k, payload);
  }

  /**
   Every state reachable from the empty store by committed requests satisfies
   the invariant, and rows only ever evolve as `Evolves` allows.
   */
  lemma {:induction false} ReplayPreservesInv(s: State, ms: seq<Mutation>)
    requires Inv(s)
    ensures Inv(Replay(s, ms))
    ensures Evolves(s, Replay(s, ms))
    decreases |ms|
  {
    if |ms| > 0 {
      var s1 := Commit(s, Apply(s, ms[0]));
      ApplyPreservesInv(s, ms[0]);
      ReplayPreservesInv(s1, ms[1..]);
      EvolvesTransitive(s, s1, Replay(s1, ms[1..]));
    }
  }

  lemma ReachableInv(ms: seq<Mutation>)
    ensures Inv(Replay(Empty, ms))
  {
    EmptyInv();
    ReplayPreservesInv(Empty, ms);
  }
}

=== FILE: models.dfy ===
/**
 The rows of the questionnaire app and what the relational store enforces on
 them: column widths, the `AnswerType` choices, title uniqueness, per-questionnaire
 text uniqueness, and the `smallint` element type of `ordered_question_ids`.
 Each store operation either fails with the error its `save` raises or yields
 the next store state. Row ids come from one counter per table.
 */
module Models {
  import opened Sequences

  const MaxTitleLength: nat := 250
  const MaxTextLength: nat := 250
  const MaxAnswerTypeLength: nat := 15
  /** Range of a Postgres `smallint`, the element type of the ordering array. */
  const SmallIntMin: int := -32768
  const SmallIntMax: int := 32767

  type UserId = int

  datatype Option<T> = None | Some(value: T)

  predicate FitsSmallInt(x: int) {
    SmallIntMin <= x <= SmallIntMax
  }

  /** Every element can be written to a `smallint[]` column. */
  predicate Storable(xs: seq<int>) {
    forall i | 0 <= i < |xs| :: FitsSmallInt(xs[i])
  }

  /** The five answer types a question may have. */
  datatype AnswerType = ShortAnswer | Paragraph | Checkboxes | MultipleChoice | Dropdown

  /** The value stored in the `answer_type` column; it fits the column's 15 characters. */
  function StoredValue(t: AnswerType): (v: string)
    ensures 0 < |v| <= MaxAnswerTypeLength
  {
    match t
    case ShortAnswer => "short_answer"
    case Paragraph => "paragraph"
    case Checkboxes => "checkboxes"
    case MultipleChoice => "multiple_choice"
    case Dropdown => "dropdown"
  }

  /** Reads a stored `answer_type` value back; anything outside the choices is rejected. */
  function ParseAnswerType(v: string): (r: Option<AnswerType>)
    ensures r.Some? ==> StoredValue(r.value) == v
    ensures r.None? ==> forall t: AnswerType :: StoredValue(t) != v
  {
    if v == "short_answer" then Some(ShortAnswer)
    else if v == "paragraph" then Some(Paragraph)
    else if v == "checkboxes" then Some(Checkboxes)
    else if v == "multiple_choice" then Some(MultipleChoice)
    else if v == "dropdown" then Some(Dropdown)
    else None
  }

  lemma AnswerTypeRoundTrip(t: AnswerType)
    ensures ParseAnswerType(StoredValue(t)) == Some(t)
  {
  }

  /** `Questionnaire` row; `orderedQuestionIds` is the denormalised display order. */
  datatype Questionnaire = Questionnaire(title: string, creator: UserId, orderedQuestionIds: seq<int>)

  /** `Question` row; `isActive` false means soft-deleted. */
  datatype Question = Question(questionnaireId: int, text: string, answerType: AnswerType, isActive: bool)

  /** Both tables plus the next id each table's sequence hands out. */
  datatype State = State(
    questionnaires: map<int, Questionnaire>,
    questions: map<int, Question>,
    nextQuestionnaireId: int,
    nextQuestionId: int)

  /** An empty database; Postgres sequences start at 1. */
  const Empty := State(map[], map[], 1, 1)

  /** Why a request failed; every failure rolls the whole request back. */
  datatype Error =
    | NulCharacter          // the driver refuses a string parameter holding the character NUL
    | TitleTooLong          // value too long for varchar(250), not just trailing spaces
    | DuplicateTitle        // another questionnaire already has this title
    | TextTooLong           // value too long for varchar(250), not just trailing spaces
    | DuplicateText         // a question of this questionnaire already has this text
    | QuestionnaireNotFound
    | Forbidden             // acting user is not the questionnaire's creator
    | QuestionNotFound
    | AlreadyDeleted
    | NotInOrdering         // `list.remove` found no such id
    | IdOutOfRange          // id does not fit the smallint array element
    | OrderingMismatch      // reorder payload differs in set or length

  datatype Result<T> = Ok(value: T) | Err(error: Error)

  predicate TitleTaken(s: State, title: string) {
    exists k :: k in s.questionnaires && s.questionnaires[k].title == title
  }

  /** Some question of that questionnaire, active or not, already has this text. */
  predicate TextTaken(s: State, questionnaireId: int, text: string) {
    exists id :: id in s.questions && s.questions[id].questionnaireId == questionnaireId
      && s.questions[id].text == text
  }

  /**
   The value a `varchar(width)` column stores for `v` (section 8.3 of the
   PostgreSQL manual, character types). No character type can hold the
   character NUL, so a value with one is refused. A longer value is refused
   unless every excess character is a space; then it is cut to the width.
   */
  function StoredVarchar(v: string, width: nat): (r: Option<string>)
    ensures r.Some? <==> '\0' !in v && (|v| <= width || forall i | width <= i < |v| :: v[i] == ' ')
    ensures r.Some? ==> |r.value| <= width && r.value <= v && '\0' !in r.value
    ensures r.Some? ==> forall i | |r.value| <= i < |v| :: v[i] == ' '
    ensures r.Some? && width < |v| ==> r.value == v[..width]
    ensures '\0' !in v && |v| <= width ==> r == Some(v)
  {
    if '\0' in v then None
    else if |v| <= width then Some(v)
    else if forall i | width <= i < |v| :: v[i] == ' ' then Some(v[..width])
    else None
  }

  /**
   The error a `varchar` insert of `v` raises when the column cannot store it:
   the driver refuses a NUL before the query reaches the server, and the
   server refuses an over-long value.
   */
  function VarcharError(v: string, tooLong: Error): (e: Error)
    ensures '\0' in v ==> e == NulCharacter
    ensures '\0' !in v ==> e == tooLong
  {
    if '\0' in v then NulCharacter else tooLong
  }

  /** A title holding NUL is refused, however short it is. */
  lemma NulIsRefused()
    ensures StoredVarchar("a\0b", MaxTitleLength).None?
    ensures VarcharError("a\0b", TitleTooLong) == NulCharacter
  {
  }

  /** A title of 250 letters and one trailing space is stored without the space. */
  lemma TrailingSpaceIsCut()
    ensures StoredVarchar(seq(250, i => 'a') + " ", MaxTitleLength) == Some(seq(250, i => 'a'))
  {
    var v := seq(250, i => 'a') + " ";
    assert v[..250] == seq(250, i => 'a');
  }

  /**
   `Questionnaire.objects.create`: the title must be storable in its column
   (no NUL; fits after the column cuts trailing spaces) and the stored title must be unused; the
   ordering must fit `smallint[]`; the row gets the next questionnaire id.
   */
  function InsertQuestionnaire(s: State, row: Questionnaire): (r: Result<State>)
    ensures StoredVarchar(row.title, MaxTitleLength).None? ==> r == Err(VarcharError(row.title, TitleTooLong))
    ensures StoredVarchar(row.title, MaxTitleLength).Some? ==>
      var title := StoredVarchar(row.title, MaxTitleLength).value;
      && (r.Ok? <==> !TitleTaken(s, title) && Storable(row.orderedQuestionIds))
      && (r.Err? && Storable(row.orderedQuestionIds) ==> r.error == DuplicateTitle)
      && (r.Ok? ==>
        && r.value.questionnaires.Keys == s.questionnaires.Keys + {s.nextQuestionnaireId}
        && r.value.questionnaires[s.nextQuestionnaireId] == row.(title := title)
        && (forall k :: k in s.questionnaires && k != s.nextQuestionnaireId ==> r.value.questionnaires[k] == s.questionnaires[k])
        && r.value.questions == s.questions
        && r.value.nextQuestionnaireId > s.nextQuestionnaireId
        && r.value.nextQuestionId == s.nextQuestionId)
  {
    match StoredVarchar(row.title, MaxTitleLength)
    case None => Err(VarcharError(row.title, TitleTooLong))
    case Some(title) =>
      if !Storable(row.orderedQuestionIds) then Err(IdOutOfRange)
      else if TitleTaken(s, title) then Err(DuplicateTitle)
      else
        var id := s.nextQuestionnaireId;
        Ok(s.(questionnaires := s.questionnaires[id := row.(title := title)], nextQuestionnaireId := id + 1))
  }

  /**
   `Question.objects.create`: the text must be storable in its column (no
   NUL; fits after the column cuts trailing spaces) and the stored text must be unused within its
   questionnaire, inactive rows included; the row gets the next question id.
   The reference to the questionnaire is a deferred foreign key, so it is not
   checked here.
   */
  function InsertQuestion(s: State, row: Question): (r: Result<State>)
    ensures StoredVarchar(row.text, MaxTextLength).None? ==> r == Err(VarcharError(row.text, TextTooLong))
    ensures StoredVarchar(row.text, MaxTextLength).Some? ==>
      var text := StoredVarchar(row.text, MaxTextLength).value;
      && (r.Ok? <==> !TextTaken(s, row.questionnaireId, text))
      && (r.Err? ==> r.error == DuplicateText)
      && (r.Ok? ==>
        && r.value.questions.Keys == s.questions.Keys + {s.nextQuestionId}
        && r.value.questions[s.nextQuestionId] == row.(text := text)
        && (forall id :: id in s.questions && id != s.nextQuestionId ==> r.value.questions[id] == s.questions[id])
        && r.value.questionnaires == s.questionnaires
        && r.value.nextQuestionId > s.nextQuestionId
        && r.value.nextQuestionnaireId == s.nextQuestionnaireId)
  {
    match StoredVarchar(row.text, MaxTextLength)
    case None => Err(VarcharError(row.text, TextTooLong))
    case Some(text) =>
      if TextTaken(s, row.questionnaireId, text) then Err(DuplicateText)
      else
        var id := s.nextQuestionId;
        Ok(s.(questions := s.questions[id := row.(text := text)], nextQuestionId := id + 1))
  }

  /** `question.save()` after `is_active = False`: the row stays, only its flag flips. */
  function Deactivate(s: State, id: int): (s': State)
    requires id in s.questions
    ensures s'.questions.Keys == s.questions.Keys
    ensures !s'.questions[id].isActive
    ensures s'.questions[id].(isActive := true) == s.questions[id].(isActive := true)
    ensures forall other :: other in s.questions && other != id ==> s'.questions[other] == s.questions[other]
    ensures s'.questionnaires == s.questionnaires
    ensures s'.nextQuestionnaireId == s.nextQuestionnaireId && s'.nextQuestionId == s.nextQuestionId
  {
    s.(questions := s.questions[id := s.questions[id].(isActive := false)])
  }

  /** `questionnaire.save()` with a new ordering; fails if an id does not fit `smallint`. */
  function SaveOrdering(s: State, k: int, ordering: seq<int>): (r: Result<State>)
    requires k in s.questionnaires
    ensures r.Ok? <==> Storable(ordering)
    ensures r.Err? ==> r.error == IdOutOfRange
    ensures r.Ok? ==>
      && r.value.questionnaires.Keys == s.questionnaires.Keys
      && r.value.questionnaires[k].orderedQuestionIds == ordering
      && r.value.questionnaires[k].title == s.questionnaires[k].title
      && r.value.questionnaires[k].creator == s.questionnaires[k].creator
      && (forall other :: other in s.questionnaires && other != k ==> r.value.questionnaires[other] == s.questionnaires[other])
      && r.value.questions == s.questions
      && r.value.nextQuestionnaireId == s.nextQuestionnaireId && r.value.nextQuestionId == s.nextQuestionId
  {
    if !Storable(ordering) then Err(IdOutOfRange)
    else Ok(s.(questionnaires := s.questionnaires[k := s.questionnaires[k].(orderedQuestionIds := ordering)]))
  }
}

=== FILE: scenarios.dfy ===
/**
 The end-to-end walk through the app: one user creates a questionnaire,
 adds four questions, deletes the third and swaps the first two.
 */
module Scenarios {
  import opened Sequences
  import opened Models
  import opened Schema

  const Author: UserId := 1
  const Stranger: UserId := 2
  const Title := "Interview questions"
  const Texts: seq<string> := ["GraphQL?", "Years?", "TCP or UDP?", "Tech stack?"]

  /** Question rows `1..n`, all active, with the texts above. */
  function QuestionsUpTo(n: nat): map<int, Question>
    requires n <= 4
  {
    if n == 0 then map[] else QuestionsUpTo(n - 1)[n := Question(1, Texts[n - 1], ShortAnswer, true)]
  }

  lemma QuestionsUpToKeys(n: nat)
    requires n <= 4
    ensures forall id :: id in QuestionsUpTo(n) <==> 1 <= id <= n
    ensures forall id :: id in QuestionsUpTo(n) ==> QuestionsUpTo(n)[id].text == Texts[id - 1]
  {
    if n > 0 {
      QuestionsUpToKeys(n - 1);
    }
  }

  /** The store after the questionnaire and its first `n` questions were created. */
  function AfterCreates(n: nat): State
    requires n <= 4
  {
    State(
      map[1 := Questionnaire(Title, Author, seq(n, i => i + 1))],
      QuestionsUpTo(n),
      2, n + 1)
  }

  lemma CreateQuestionnaireStep()
    ensures CreateQuestionnaire(Empty, Author, Title) == Ok(AfterCreates(0))
  {
    assert !TitleTaken(Empty, Title);
    assert seq(0, i => i + 1) == [];
  }

  /** Each create succeeds and appends the next id, in creation order. */
  lemma CreateQuestionStep(n: nat)
    requires n < 4
    ensures CreateQuestion(AfterCreates(n), Author, 1, Texts[n], ShortAnswer) == Ok(AfterCreates(n + 1))
  {
    var s := AfterCreates(n);
    QuestionsUpToKeys(n);
    assert !TextTaken(s, 1, Texts[n]) by {
      forall id | id in s.questions
        ensures s.questions[id].text != Texts[n]
      {
        assert s.questions[id].text == Texts[id - 1];
        assert Texts[id - 1] != Texts[n];
      }
    }
    assert seq(n, i => i + 1) + [n + 1] == seq(n + 1, i => i + 1);
    var r := CreateQuestion(s, Author, 1, Texts[n], ShortAnswer);
    assert r.Ok?;
    assert r.value.questions == AfterCreates(n + 1).questions;
    assert r.value.questionnaires == AfterCreates(n + 1).questionnaires;
  }

  /** A stranger may not delete; the author's delete of question 3 drops only its id. */
  lemma DeleteStep()
    ensures DeleteQuestion(AfterCreates(4), Stranger, 1, 3) == Err(Forbidden)
    ensures DeleteQuestion(AfterCreates(4), Author, 1, 3) == Ok(AfterDelete())
    ensures 3 !in ListQuestionnaires(AfterDelete())[1].questionSet
  {
    var s := AfterCreates(4);
    QuestionsUpToKeys(4);
    assert OrderingOf(s, 1) == [1, 2, 3, 4];
    assert RemoveFirst([1, 2, 3, 4], 3) == [1, 2, 4];
    assert s.questions[3] == Question(1, Texts[2], ShortAnswer, true);
    var r := DeleteQuestion(s, Author, 1, 3);
    assert r.Ok?;
    assert r.value.questions == AfterDelete().questions;
    assert r.value.questionnaires == AfterDelete().questionnaires;
  }

  /** The store after question 3 was deleted. */
  function AfterDelete(): State {
    State(
      map[1 := Questionnaire(Title, Author, [1, 2, 4])],
      QuestionsUpTo(4)[3 := Question(1, Texts[2], ShortAnswer, false)],
      2, 5)
  }

  /** A payload missing an id is refused; the swap of the first two is accepted and hides nothing. */
  lemma ReorderStep()
    ensures ReorderQuestions(AfterDelete(), Author, 1, [1, 2]) == Err(OrderingMismatch)
    ensures ReorderQuestions(AfterDelete(), Author, 1, [2, 1, 4]).Ok?
    ensures OrderingOf(ReorderQuestions(AfterDelete(), Author, 1, [2, 1, 4]).value, 1) == [2, 1, 4]
    ensures ListQuestionnaires(ReorderQuestions(AfterDelete(), Author, 1, [2, 1, 4]).value)[1].questionSet
         == ListQuestionnaires(AfterDelete())[1].questionSet
  {
    assert OrderingOf(AfterDelete(), 1) == [1, 2, 4];
    assert Elements([1, 2]) != Elements([1, 2, 4]) by {
      assert 4 in Elements([1, 2, 4]);
    }
    assert Elements([2, 1, 4]) == Elements([1, 2, 4]) by {
      assert forall y :: y in [2, 1, 4] <==> y in [1, 2, 4];
    }
  }
}

=== FILE: schema.dfy ===
/**
 The ordering engine: the four mutations and the listing query, each mutation
 an all-or-nothing step from one store state to the next. The checks run in
 the order the mutations make them, so a request that breaks several rules
 reports the error the mutation meets first; every check comes before any
 write, and a failed request leaves the store as it was.
 */
module Schema {
  import opened Sequences
  import opened Models

  /** The request's transaction: a success commits the new state, a failure keeps the old one. */
  function Commit(s: State, r: Result<State>): (s': State)
    ensures r.Err? ==> s' == s
    ensures r.Ok? ==> s' == r.value
  {
    match r
    case Ok(next) => next
    case Err(_) => s
  }

  /** The ordering of questionnaire `k`. */
  function OrderingOf(s: State, k: int): seq<int>
    requires k in s.questionnaires
  {
    s.questionnaires[k].orderedQuestionIds
  }

  /**
   `CreateQuestionnaire`: a new questionnaire owned by the acting user with an
   empty ordering, under the next questionnaire id. The title is stored as its
   column keeps it, so trailing spaces past the width are dropped.
   */
  function CreateQuestionnaire(s: State, principal: UserId, title: string): (r: Result<State>)
    ensures '\0' in title ==> r == Err(NulCharacter)
    ensures '\0' !in title && StoredVarchar(title, MaxTitleLength).None? ==> r == Err(TitleTooLong)
    ensures StoredVarchar(title, MaxTitleLength).Some? ==>
      var stored := StoredVarchar(title, MaxTitleLength).value;
      && (r.Ok? <==> !TitleTaken(s, stored))
      && (r.Err? ==> r.error == DuplicateTitle)
      && (r.Ok? ==>
        s.nextQuestionnaireId in r.value.questionnaires
        && r.value.questionnaires[s.nextQuestionnaireId] == Questionnaire(stored, principal, []))
    ensures r.Ok? ==>
      && r.value.questionnaires.Keys == s.questionnaires.Keys + {s.nextQuestionnaireId}
      && (forall j :: j in s.questionnaires && j != s.nextQuestionnaireId ==> r.value.questionnaires[j] == s.questionnaires[j])
      && r.value.questions == s.questions
      && r.value.nextQuestionnaireId > s.nextQuestionnaireId
      && r.value.nextQuestionId == s.nextQuestionId
  {
    InsertQuestionnaire(s, Questionnaire(title, principal, []))
  }

  /**
   `CreateQuestion`: inserts an active question under the next question id and
   appends that id to the questionnaire's ordering. The insert is what detects
   an over-long or already used text, so those errors win over a missing
   questionnaire and over a foreign user. The text is stored as its column
   keeps it, so trailing spaces past the width are dropped.
   */
  function CreateQuestion(s: State, principal: UserId, k: int, text: string, answerType: AnswerType): (r: Result<State>)
    ensures '\0' in text ==> r == Err(NulCharacter)
    ensures '\0' !in text && StoredVarchar(text, MaxTextLength).None? ==> r == Err(TextTooLong)
    ensures StoredVarchar(text, MaxTextLength).Some? ==>
      var stored := StoredVarchar(text, MaxTextLength).value;
      && (r.Ok? <==>
        && !TextTaken(s, k, stored)
        && k in s.questionnaires && s.questionnaires[k].creator == principal
        && FitsSmallInt(s.nextQuestionId))
      && (TextTaken(s, k, stored) ==> r == Err(DuplicateText))
      && (!TextTaken(s, k, stored) && k !in s.questionnaires ==> r == Err(QuestionnaireNotFound))
      && (!TextTaken(s, k, stored) && k in s.questionnaires && s.questionnaires[k].creator != principal ==>
        r == Err(Forbidden))
      && (r.Ok? ==>
        s.nextQuestionId in r.value.questions
        && r.value.questions[s.nextQuestionId] == Question(k, stored, answerType, true))
    ensures r.Ok? ==>
      && k in s.questionnaires
      && r.value.questionnaires.Keys == s.questionnaires.Keys
      && r.value.questions.Keys == s.questions.Keys + {s.nextQuestionId}
      && var before := OrderingOf(s, k);
      var after := r.value.questionnaires[k].orderedQuestionIds;
      && |after| == |before| + 1
      && after[..|before|] == before
      && after[|before|] == s.nextQuestionId
      && r.value.questionnaires[k].(orderedQuestionIds := before) == s.questionnaires[k]
      && (forall j :: j in s.questionnaires && j != k ==> r.value.questionnaires[j] == s.questionnaires[j])
      && (forall id :: id in s.questions && id != s.nextQuestionId ==> r.value.questions[id] == s.questions[id])
      && r.value.nextQuestionnaireId == s.nextQuestionnaireId
      && r.value.nextQuestionId > s.nextQuestionId
  {
    match StoredVarchar(text, MaxTextLength)
    case None => Err(VarcharError(text, TextTooLong))
    case Some(stored) =>
      if TextTaken(s, k, stored) then Err(DuplicateText)
      else if k !in s.questionnaires then Err(QuestionnaireNotFound)
      else if s.questionnaires[k].creator != principal then Err(Forbidden)
      else if !FitsSmallInt(s.nextQuestionId) then Err(IdOutOfRange)
      else
        var id := s.nextQuestionId;
        var qn := s.questionnaires[k];
        Ok(s.(questions := s.questions[id := Question(k, stored, answerType, true)],
              questionnaires := s.questionnaires[k := qn.(orderedQuestionIds := qn.orderedQuestionIds + [id])],
              nextQuestionId := id + 1))
  }

  /**
   `DeleteQuestion`: soft-deletes an active question of questionnaire `k` and
   removes its id from the ordering. The question lookup and the
   already-deleted check come before the ownership check.
   */
  function DeleteQuestion(s: State, principal: UserId, k: int, questionId: int): (r: Result<State>)
    ensures questionId !in s.questions || s.questions[questionId].questionnaireId != k ==> r == Err(QuestionNotFound)
    ensures questionId in s.questions && s.questions[questionId].questionnaireId == k && !s.questions[questionId].isActive ==>
      r == Err(AlreadyDeleted)
    ensures questionId in s.questions && s.questions[questionId].questionnaireId == k && s.questions[questionId].isActive ==>
      && (k !in s.questionnaires ==> r == Err(QuestionnaireNotFound))
      && (k in s.questionnaires && s.questionnaires[k].creator != principal ==> r == Err(Forbidden))
      && (k in s.questionnaires && s.questionnaires[k].creator == principal ==>
        (r.Ok? <==> questionId in OrderingOf(s, k)) && (r.Err? ==> r.error == NotInOrdering))
    ensures r.Ok? ==> k in s.questionnaires && s.questionnaires[k].creator == principal
    ensures r.Ok? ==>
      && k in s.questionnaires && questionId in s.questions
      && r.value.questionnaires.Keys == s.questionnaires.Keys
      && r.value.questions.Keys == s.questions.Keys
      && var before := OrderingOf(s, k);
      var after := r.value.questionnaires[k].orderedQuestionIds;
      && questionId in before
      && after == before[..IndexOf(before, questionId)] + before[IndexOf(before, questionId) + 1..]
      && r.value.questionnaires[k].(orderedQuestionIds := before) == s.questionnaires[k]
      && s.questions[questionId].isActive && !r.value.questions[questionId].isActive
      && r.value.questions[questionId].(isActive := true) == s.questions[questionId]
      && (forall j :: j in s.questionnaires && j != k ==> r.value.questionnaires[j] == s.questionnaires[j])
      && (forall id :: id in s.questions && id != questionId ==> r.value.questions[id] == s.questions[id])
      && r.value.nextQuestionnaireId == s.nextQuestionnaireId
      && r.value.nextQuestionId == s.nextQuestionId
  {
    if questionId !in s.questions || s.questions[questionId].questionnaireId != k then Err(QuestionNotFound)
    else if !s.questions[questionId].isActive then Err(AlreadyDeleted)
    else if k !in s.questionnaires then Err(QuestionnaireNotFound)
    else if s.questionnaires[k].creator != principal then Err(Forbidden)
    else if questionId !in s.questionnaires[k].orderedQuestionIds then Err(NotInOrdering)
    else
      var qn := s.questionnaires[k];
      Ok(s.(questions := s.questions[questionId := s.questions[questionId].(isActive := false)],
            questionnaires := s.questionnaires[k := qn.(orderedQuestionIds := RemoveFirst(qn.orderedQuestionIds, questionId))]))
  }

  /**
   `ReorderQuestions`: the creator replaces the ordering with `payload`
   verbatim, provided it has the same set of ids and the same length as the
   current ordering. Only the ordering changes.
   */
  function ReorderQuestions(s: State, principal: UserId, k: int, payload: seq<int>): (r: Result<State>)
    ensures k !in s.questionnaires ==> r == Err(QuestionnaireNotFound)
    ensures k in s.questionnaires && s.questionnaires[k].creator != principal ==> r == Err(Forbidden)
    ensures k in s.questionnaires && s.questionnaires[k].creator == principal ==>
      (r.Ok? <==> SameContent(payload, OrderingOf(s, k)))
    ensures r.Err? && k in s.questionnaires && s.questionnaires[k].creator == principal ==> r.error == OrderingMismatch
    ensures r.Ok? ==>
      && r.value.questionnaires.Keys == s.questionnaires.Keys
      && r.value.questionnaires[k].orderedQuestionIds == payload
      && r.value.questionnaires[k].(orderedQuestionIds := OrderingOf(s, k)) == s.questionnaires[k]
      && (forall j :: j in s.questionnaires && j != k ==> r.value.questionnaires[j] == s.questionnaires[j])
      && r.value.questions == s.questions
      && r.value.nextQuestionnaireId == s.nextQuestionnaireId
      && r.value.nextQuestionId == s.nextQuestionId
    ensures k in s.questionnaires && s.questionnaires[k].creator == principal && payload == OrderingOf(s, k) ==>
      r == Ok(s)
  {
    if k !in s.questionnaires then Err(QuestionnaireNotFound)
    else if s.questionnaires[k].creator != principal then Err(Forbidden)
    else if !SameContent(payload, s.questionnaires[k].orderedQuestionIds) then Err(OrderingMismatch)
    else
      var qn := s.questionnaires[k];
      var updated := s.questionnaires[k := qn.(orderedQuestionIds := payload)];
      assert payload == qn.orderedQuestionIds ==> updated == s.questionnaires;
      Ok(s.(questionnaires := updated))
  }

  /** Ids of the active questions of questionnaire `k`. */
  function ActiveIds(s: State, k: int): set<int> {
    set id | id in s.questions && s.questions[id].questionnaireId == k && s.questions[id].isActive
  }

  /** `prefetch_questions`: the active questions of questionnaire `k`. */
  function ActiveQuestions(s: State, k: int): (m: map<int, Question>)
    ensures m.Keys == ActiveIds(s, k)
    ensures forall id :: id in m ==> m[id] == s.questions[id]
  {
    map id | id in ActiveIds(s, k) :: s.questions[id]
  }

  /** One questionnaire as the listing returns it, with its active questions attached. */
  datatype Listing = Listing(questionnaire: Questionnaire, questionSet: map<int, Question>)

  /** `resolve_questionnaire`: every questionnaire with its active questions. */
  function ListQuestionnaires(s: State): (r: map<int, Listing>)
    ensures r.Keys == s.questionnaires.Keys
    ensures forall k :: k in r ==> r[k].questionnaire == s.questionnaires[k]
    ensures forall k :: k in r ==> r[k].questionSet.Keys == ActiveIds(s, k)
    ensures forall k, id :: k in r && id in r[k].questionSet ==>
      id in s.questions && s.questions[id].questionnaireId == k && s.questions[id].isActive
      && r[k].questionSet[id] == s.questions[id]
  {
    map k | k in s.questionnaires :: Listing(s.questionnaires[k], ActiveQuestions(s, k))
  }
}

=== FILE: sequences.dfy ===
/**
 The list operations the ordering engine performs on `ordered_question_ids`:
 Python's `set(...)`, `len(...)`, `list.remove(...)`, and the facts that make
 the reorder check (equal sets and equal lengths) a permutation check when the
 current list has no duplicates.
 */
module Sequences {

  /** True when no id occurs twice in `xs`. */
  predicate NoDuplicates(xs: seq<int>) {
    forall i, j | 0 <= i < j < |xs| :: xs[i] != xs[j]
  }

  /** Python's `set(xs)`. */
  function Elements(xs: seq<int>): set<int> {
    set x | x in xs
  }

  /** Position of the first occurrence of `x` in `xs`. */
  function IndexOf(xs: seq<int>, x: int): (i: nat)
    requires x in xs
    ensures i < |xs| && xs[i] == x
    ensures x !in xs[..i]
  {
    if xs[0] == x then 0
    else
      var j := IndexOf(xs[1..], x);
      assert xs[..j + 1] == [xs[0]] + xs[1..][..j];
      1 + j
  }

  /**
   Python's `xs.remove(x)`: drops the first occurrence of `x` and keeps the
   rest in order. Python raises `ValueError` when `x` is absent; callers check
   membership first.
   */
  function RemoveFirst(xs: seq<int>, x: int): (r: seq<int>)
    requires x in xs
    ensures r == xs[..IndexOf(xs, x)] + xs[IndexOf(xs, x) + 1..]
  {
    if xs[0] == x then xs[1..]
    else
      var rest := RemoveFirst(xs[1..], x);
      var j := IndexOf(xs[1..], x);
      assert xs[..j + 1] == [xs[0]] + xs[1..][..j];
      assert xs[j + 2..] == xs[1..][j + 1..];
      [xs[0]] + rest
  }

  /** Reference definition: every element of `xs` other than `x`, in order. */
  function Without(xs: seq<int>, x: int): (r: seq<int>)
    ensures x !in r
    ensures Elements(r) == Elements(xs) - {x}
    ensures |r| <= |xs|
  {
    if |xs| == 0 then []
    else
      var rest := Without(xs[1..], x);
      assert Elements(xs) == {xs[0]} + Elements(xs[1..]) by {
        assert xs == [xs[0]] + xs[1..];
      }
      if xs[0] == x then rest
      else
        assert Elements([xs[0]] + rest) == {xs[0]} + Elements(rest);
        [xs[0]] + rest
  }

  lemma {:induction false} WithoutAbsent(xs: seq<int>, x: int)
    requires x !in xs
    ensures Without(xs, x) == xs
  {
    if |xs| > 0 {
      assert x !in xs[1..] by {
        assert forall y | y in xs[1..] :: y in xs;
      }
      WithoutAbsent(xs[1..], x);
      assert xs == [xs[0]] + xs[1..];
    }
  }

  lemma NoDuplicatesTail(xs: seq<int>)
    requires |xs| > 0 && NoDuplicates(xs)
    ensures NoDuplicates(xs[1..])
    ensures xs[0] !in xs[1..]
  {
    forall k | 0 <= k < |xs[1..]|
      ensures xs[1..][k] != xs[0]
    {
      assert xs[1..][k] == xs[k + 1];
    }
  }

  /**
   On a duplicate-free list, `list.remove` removes exactly the one id: the
   result is the reference `Without`, shorter by one, and still duplicate-free.
   */
  lemma {:induction false} RemoveFirstOfDistinct(xs: seq<int>, x: int)
    requires x in xs && NoDuplicates(xs)
    ensures RemoveFirst(xs, x) == Without(xs, x)
    ensures |RemoveFirst(xs, x)| == |xs| - 1
    ensures NoDuplicates(RemoveFirst(xs, x))
    ensures Elements(RemoveFirst(xs, x)) == Elements(xs) - {x}
  {
    NoDuplicatesTail(xs);
    if xs[0] == x {
      WithoutAbsent(xs[1..], x);
    } else {
      RemoveFirstOfDistinct(xs[1..], x);
      var r := RemoveFirst(xs, x);
      assert r == [xs[0]] + RemoveFirst(xs[1..], x);
      assert xs[0] !in RemoveFirst(xs[1..], x) by {
        assert Elements(RemoveFirst(xs[1..], x)) == Elements(xs[1..]) - {x};
      }
      forall i, j | 0 <= i < j < |r|
        ensures r[i] != r[j]
      {
        if i > 0 {
          assert r[i] == RemoveFirst(xs[1..], x)[i - 1];
          assert r[j] == RemoveFirst(xs[1..], x)[j - 1];
        } else {
          assert r[j] in RemoveFirst(xs[1..], x);
        }
      }
    }
  }

  /**
   The reorder check: `set(payload) == set(current)` and `len(payload) == len(current)`.
   Equal length with no set loss on the current side means none on the payload
   side, so a check passed against a duplicate-free list admits no duplicate.
   */
  function SameContent(payload: seq<int>, current: seq<int>): (b: bool)
    ensures b && NoDuplicates(current) ==> NoDuplicates(payload)
  {
    DistinctIffNoLoss(current);
    DistinctIffNoLoss(payload);
    Elements(payload) == Elements(current) && |payload| == |current|
  }

  lemma {:induction false} ElementsBound(xs: seq<int>)
    ensures |Elements(xs)| <= |xs|
  {
    if |xs| > 0 {
      ElementsBound(xs[1..]);
      assert xs == [xs[0]] + xs[1..];
      assert Elements(xs) == {xs[0]} + Elements(xs[1..]);
    }
  }

  /** A list is duplicate-free exactly when `set` of it loses no element. */
  lemma {:induction false} DistinctIffNoLoss(xs: seq<int>)
    ensures NoDuplicates(xs) <==> |Elements(xs)| == |xs|
  {
    if |xs| > 0 {
      var tail := xs[1..];
      assert xs == [xs[0]] + tail;
      assert Elements(xs) == {xs[0]} + Elements(tail);
      DistinctIffNoLoss(tail);
      if xs[0] in tail {
        ElementsBound(tail);
        assert Elements(xs) == Elements(tail);
        var k :| 0 <= k < |tail| && tail[k] == xs[0];
        assert xs[k + 1] == xs[0];
        assert !NoDuplicates(xs);
      } else {
        assert |Elements(xs)| == 1 + |Elements(tail)|;
        if NoDuplicates(tail) {
          forall i, j | 0 <= i < j < |xs|
            ensures xs[i] != xs[j]
          {
            if i > 0 {
              assert xs[i] == tail[i - 1] && xs[j] == tail[j - 1];
            } else {
              assert xs[j] in tail;
            }
          }
        } else {
          var i, j :| 0 <= i < j < |tail| && tail[i] == tail[j];
          assert xs[i + 1] == xs[j + 1];
        }
      }
    }
  }

  /** In a duplicate-free list every id occurs once and every other id not at all. */
  lemma {:induction false} DistinctMultiplicity(xs: seq<int>)
    requires NoDuplicates(xs)
    ensures forall y :: multiset(xs)[y] == (if y in xs then 1 else 0)
  {
    if |xs| > 0 {
      NoDuplicatesTail(xs);
      DistinctMultiplicity(xs[1..]);
      assert xs == [xs[0]] + xs[1..];
      assert multiset(xs) == multiset{xs[0]} + multiset(xs[1..]);
      forall y
        ensures multiset(xs)[y] == (if y in xs then 1 else 0)
      {
        assert y in xs <==> y == xs[0] || y in xs[1..];
      }
    }
  }

  /**
   When the current list has no duplicates, the reorder check accepts exactly
   the permutations of it, and every accepted payload is duplicate-free too.
   */
  lemma {:induction false} AcceptedPayloadIsPermutation(current: seq<int>, payload: seq<int>)
    requires NoDuplicates(current)
    ensures SameContent(payload, current) <==> multiset(payload) == multiset(current)
    ensures SameContent(payload, current) ==> NoDuplicates(payload)
  {
    DistinctIffNoLoss(current);
    DistinctIffNoLoss(payload);
    if SameContent(payload, current) {
      DistinctMultiplicity(current);
      DistinctMultiplicity(payload);
      forall y
        ensures multiset(payload)[y] == multiset(current)[y]
      {
        assert y in payload <==> y in Elements(payload);
        assert y in current <==> y in Elements(current);
      }
      assert multiset(payload) == multiset(current);
    }
    if multiset(payload) == multiset(current) {
      assert |payload| == |multiset(payload)| == |multiset(current)| == |current|;
      forall y
        ensures y in Elements(payload) <==> y in Elements(current)
      {
        assert y in payload <==> y in multiset(payload);
        assert y in current <==> y in multiset(current);
      }
    }
  }

  /**
   The invariant is what makes the check sound: on a list that already has a
   duplicate, a payload with equal set and length need not be a permutation.
   */
  lemma SameContentWithoutDistinctness()
    ensures SameContent([1, 2, 2], [1, 1, 2])
    ensures multiset([1, 2, 2]) != multiset([1, 1, 2])
  {
    assert Elements([1, 2, 2]) == {1, 2} == Elements([1, 1, 2]);
    assert multiset([1, 2, 2])[2] == 2;
  }
}

=== FILE: transactions.dfy ===
/**
 The mutations as the code orders them, writes included: creating a question
 inserts the row before it looks the questionnaire up and checks ownership,
 and deleting one clears `is_active` before the ownership check. Each request
 runs in one transaction (`ATOMIC_REQUESTS`). The model takes a request whose
 mutation raised as rolled back. graphene turns the exception into an `errors`
 entry of the response and the view returns normally, so that rollback rests
 on the GraphQL view marking the transaction for rollback when its result has
 errors. Under that rollback the write-first order is indistinguishable from
 the check-first mutations of `Schema`; without it (`Autocommit`), a request
 refused after the questionnaire lookup succeeds leaves the store inconsistent.
 */
module Transactions {
  import opened Sequences
  import opened Models
  import opened Schema
  import opened Invariants

  /** The store as a request left it, and whether the request raised. */
  datatype Run = Finished(working: State) | Raised(working: State, error: Error)

  /**
   `ATOMIC_REQUESTS = True` together with a GraphQL view that rolls back a
   result with errors: a request whose mutation raised is rolled back as a whole.
   */
  function Atomic(run: Run): (r: Result<State>)
    ensures r.Ok? <==> run.Finished?
    ensures r.Ok? ==> r.value == run.working
    ensures r.Err? ==> r.error == run.error
  {
    match run
    case Finished(w) => Ok(w)
    case Raised(_, e) => Err(e)
  }

  /**
   Autocommit: every write made before the exception stays. This holds for
   refusals after the questionnaire lookup succeeds; a question inserted under
   a missing questionnaire is still undone at commit by the deferred foreign
   key, which this function does not model.
   */
  function Autocommit(run: Run): State {
    run.working
  }

  /** The insert is the only write and the only check, so a raised run has written nothing. */
  function CreateQuestionnaireAsWritten(s: State, principal: UserId, title: string): (r: Run)
    ensures r.Raised? ==> r.working == s && (r.error == NulCharacter || r.error == TitleTooLong || r.error == DuplicateTitle)
    ensures r.Finished? ==> r.working.questions == s.questions
  {
    match InsertQuestionnaire(s, Questionnaire(title, principal, []))
    case Err(e) => Raised(s, e)
    case Ok(s1) => Finished(s1)
  }

  /**
   Insert the question, then look the questionnaire up, check ownership,
   append, save. A refused lookup or ownership check comes after the insert:
   the working store then holds the new active question in no ordering.
   */
  function CreateQuestionAsWritten(s: State, principal: UserId, k: int, text: string, answerType: AnswerType): (r: Run)
    ensures r.Raised? && (r.error == NulCharacter || r.error == TextTooLong || r.error == DuplicateText) ==> r.working == s
    ensures r.Raised? && (r.error == QuestionnaireNotFound || r.error == Forbidden) ==>
      && StoredVarchar(text, MaxTextLength).Some?
      && s.nextQuestionId in r.working.questions
      && r.working.questions[s.nextQuestionId] == Question(k, StoredVarchar(text, MaxTextLength).value, answerType, true)
      && r.working.questionnaires == s.questionnaires
    ensures r.Finished? ==> k in s.questionnaires && s.questionnaires[k].creator == principal
  {
    match InsertQuestion(s, Question(k, text, answerType, true))
    case Err(e) => Raised(s, e)
    case Ok(s1) =>
      var id := s.nextQuestionId;
      if k !in s1.questionnaires then Raised(s1, QuestionnaireNotFound)
      else if s1.questionnaires[k].creator != principal then Raised(s1, Forbidden)
      else
        match SaveOrdering(s1, k, s1.questionnaires[k].orderedQuestionIds + [id])
        case Err(e) => Raised(s1, e)
        case Ok(s2) => Finished(s2)
  }

  /**
   Fetch the question, soft-delete it, then look the questionnaire up, check
   ownership, remove, save. A refusal after the soft delete leaves the
   working store with the question inactive and every ordering untouched.
   */
  function DeleteQuestionAsWritten(s: State, principal: UserId, k: int, questionId: int): (r: Run)
    ensures r.Raised? && (r.error == QuestionNotFound || r.error == AlreadyDeleted) ==> r.working == s
    ensures r.Raised? && (r.error == QuestionnaireNotFound || r.error == Forbidden || r.error == NotInOrdering) ==>
      && questionId in s.questions && s.questions[questionId].isActive
      && questionId in r.working.questions && !r.working.questions[questionId].isActive
      && r.working.questionnaires == s.questionnaires
    ensures r.Finished? ==> k in s.questionnaires && s.questionnaires[k].creator == principal
  {
    if questionId !in s.questions || s.questions[questionId].questionnaireId != k then Raised(s, QuestionNotFound)
    else if !s.questions[questionId].isActive then Raised(s, AlreadyDeleted)
    else
      var s1 := Deactivate(s, questionId);
      if k !in s1.questionnaires then Raised(s1, QuestionnaireNotFound)
      else if s1.questionnaires[k].creator != principal then Raised(s1, Forbidden)
      else if questionId !in s1.questionnaires[k].orderedQuestionIds then Raised(s1, NotInOrdering)
      else
        match SaveOrdering(s1, k, RemoveFirst(s1.questionnaires[k].orderedQuestionIds, questionId))
        case Err(e) => Raised(s1, e)
        case Ok(s2) => Finished(s2)
  }

  /** Every check comes before the one write, so a raised run has written nothing. */
  function ReorderQuestionsAsWritten(s: State, principal: UserId, k: int, payload: seq<int>): (r: Run)
    ensures r.Raised? ==> r.working == s
    ensures r.Finished? ==>
      && k in s.questionnaires && s.questionnaires[k].creator == principal
      && k in r.working.questionnaires && r.working.questionnaires[k].orderedQuestionIds == payload
  {
    if k !in s.questionnaires then Raised(s, QuestionnaireNotFound)
    else if s.questionnaires[k].creator != principal then Raised(s, Forbidden)
    else if !SameContent(payload, s.questionnaires[k].orderedQuestionIds) then Raised(s, OrderingMismatch)
    else
      match SaveOrdering(s, k, payload)
      case Err(e) => Raised(s, e)
      case Ok(s1) => Finished(s1)
  }

  lemma CreateQuestionnaireIsAtomic(s: State, principal: UserId, title: string)
    ensures Atomic(CreateQuestionnaireAsWritten(s, principal, title)) == CreateQuestionnaire(s, principal, title)
  {
  }

  /**
   Rolled back, the insert-first order gives exactly the check-first result:
   the same error in the same precedence, or the same committed state.
   */
  lemma {:induction false} CreateQuestionIsAtomic(s: State, principal: UserId, k: int, text: string, answerType: AnswerType)
    requires ColumnsFit(s)
    ensures Atomic(CreateQuestionAsWritten(s, principal, k, text, answerType)) == CreateQuestion(s, principal, k, text, answerType)
  {
    var row := Question(k, text, answerType, true);
    var ins := InsertQuestion(s, row);
    if ins.Ok? && k in s.questionnaires && s.questionnaires[k].creator == principal {
      var before := s.questionnaires[k].orderedQuestionIds;
      var id := s.nextQuestionId;
      assert Storable(before);
      assert Storable(before + [id]) <==> FitsSmallInt(id) by {
        if FitsSmallInt(id) {
          forall a | 0 <= a < |before + [id]|
            ensures FitsSmallInt((before + [id])[a])
          {
            if a < |before| {
              assert (before + [id])[a] == before[a];
            }
          }
        } else {
          assert (before + [id])[|before|] == id;
        }
      }
    }
  }

  /** Rolled back, soft-deleting before the ownership check is harmless. */
  lemma {:induction false} DeleteQuestionIsAtomic(s: State, principal: UserId, k: int, questionId: int)
    requires ColumnsFit(s)
    ensures Atomic(DeleteQuestionAsWritten(s, principal, k, questionId)) == DeleteQuestion(s, principal, k, questionId)
  {
    if && questionId in s.questions && s.questions[questionId].questionnaireId == k
       && s.questions[questionId].isActive && k in s.questionnaires
       && s.questionnaires[k].creator == principal
       && questionId in s.questionnaires[k].orderedQuestionIds
    {
      var before := s.questionnaires[k].orderedQuestionIds;
      var after := RemoveFirst(before, questionId);
      var i := IndexOf(before, questionId);
      assert Storable(before);
      forall a | 0 <= a < |after|
        ensures FitsSmallInt(after[a])
      {
        if a < i {
          assert after[a] == before[a];
        } else {
          assert after[a] == before[a + 1];
        }
      }
    }
  }

  lemma {:induction false} ReorderQuestionsIsAtomic(s: State, principal: UserId, k: int, payload: seq<int>)
    requires ColumnsFit(s)
    ensures Atomic(ReorderQuestionsAsWritten(s, principal, k, payload)) == ReorderQuestions(s, principal, k, payload)
  {
    if k in s.questionnaires && SameContent(payload, s.questionnaires[k].orderedQuestionIds) {
      var before := s.questionnaires[k].orderedQuestionIds;
      assert Storable(before);
      forall a | 0 <= a < |payload|
        ensures FitsSmallInt(payload[a])
      {
        assert payload[a] in Elements(before);
        var b :| 0 <= b < |before| && before[b] == payload[a];
      }
    }
  }

  /** A store with questionnaire 1 of user 1 holding the active question 1. */
  function OneQuestionStore(): State {
    State(
      map[1 := Questionnaire("Quiz", 1, [1])],
      map[1 := Question(1, "GraphQL?", ShortAnswer, true)],
      2, 2)
  }

  lemma OneQuestionStoreInv()
    ensures Inv(OneQuestionStore())
  {
    var s := OneQuestionStore();
    assert Elements([1]) == {1};
    assert ActiveIds(s, 1) == {1};
    assert '\0' !in "Quiz" && '\0' !in "GraphQL?";
  }

  /**
   Without the request transaction, a foreign user's refused create keeps
   its inserted question: an active question no ordering lists.
   */
  lemma AutocommitBreaksInvOnCreate()
    ensures Inv(OneQuestionStore())
    ensures CreateQuestionAsWritten(OneQuestionStore(), 2, 1, "Stack?", ShortAnswer).Raised?
    ensures CreateQuestionAsWritten(OneQuestionStore(), 2, 1, "Stack?", ShortAnswer).error == Forbidden
    ensures !Inv(Autocommit(CreateQuestionAsWritten(OneQuestionStore(), 2, 1, "Stack?", ShortAnswer)))
  {
    var s := OneQuestionStore();
    OneQuestionStoreInv();
    assert StoredVarchar("Stack?", MaxTextLength) == Some("Stack?") by {
      assert '\0' !in "Stack?";
    }
    assert !TextTaken(s, 1, "Stack?") by {
      assert "Stack?" != "GraphQL?";
    }
    var w := Autocommit(CreateQuestionAsWritten(s, 2, 1, "Stack?", ShortAnswer));
    assert 2 in ActiveIds(w, 1);
    assert 2 !in Elements(OrderingOf(w, 1));
  }

  /**
   Without the request transaction, a foreign user's refused delete keeps
   the soft delete: an ordering that lists an inactive question.
   */
  lemma AutocommitBreaksInvOnDelete()
    ensures Inv(OneQuestionStore())
    ensures DeleteQuestionAsWritten(OneQuestionStore(), 2, 1, 1) == Raised(Deactivate(OneQuestionStore(), 1), Forbidden)
    ensures !Inv(Autocommit(DeleteQuestionAsWritten(OneQuestionStore(), 2, 1, 1)))
  {
    var s := OneQuestionStore();
    OneQuestionStoreInv();
    var w := Autocommit(DeleteQuestionAsWritten(s, 2, 1, 1));
    assert 1 in Elements(OrderingOf(w, 1));
    assert 1 !in ActiveIds(w, 1);
  }
}
